=== FILE: README.md ===
# Template and credit pollers: a Dafny model

The program logs into a messaging dashboard through a headless browser, keeps
the resulting browser storage state (`auth.json`) and a 24-hour expiry stamp
(`session-expiry.json`) on disk, and polls two REST endpoints with the bearer
token found in the `token` cookie:

- the **template poller** (`api.js` over `components/fetchMissingTemplates.js`)
  fetches template statuses, normalises them, keeps the templates that became
  `DISABLED` in the last four hours, reformats their dates and returns
  `{success, templates, totalCount}`; a rejected token (`AUTH_FAILED`) triggers
  one re-login and one retried fetch;
- the **credit poller** (`index.js`) reads the `templateCredit` balance, caches
  it in `latest-credit.json`, alerts a webhook when it is below 3000, and on a
  401 deletes both session files and logs in again; it answers the `/credits`
  and `/api/cron-check` HTTP endpoints.

This project models that core as pure functions over an abstract world:

| file | module | models |
|---|---|---|
| `wrappers.dfy` | `Wrappers` | `Option` and `Result` |
| `http.dfy` | `Http` | the HTTP status codes 200, 401 and 500 |
| `session_store.dfy` | `SessionStore` | the three JSON files as one `Files` record, the first-`token`-cookie lookup, `isSessionValid`, `readLatestCreditValue`, the login's session stamp, the 401 clean-up, the credit cache write |
| `templates.dfy` | `Templates` | `makeApiCall`'s error mapping, `processTemplates`, `filterRecentTemplates`, `formatTemplateDates`, `fetchMissingTemplates` |
| `template_session.dfy` | `TemplateSession` | `getTokenFromStorage` and the `getTemplates` login/fetch/retry state machine |
| `credits.dfy` | `Credits` | `login` ⇄ `scrapeCredits` under a login budget, the alert threshold |
| `endpoints.dfy` | `Endpoints` | the `/credits` and `/api/cron-check` response mapping and the cron secret guard |

How the outside world enters the model:

- **Time** is an integer of epoch milliseconds, one `now` per top-level call.
  Parsing a date string is a parameter `parse: string -> Option<int>`, where
  `None` is JavaScript's NaN. Rendering a date is a parameter `format`.
- **Logins and API replies** are scripted oracles. `login(k)` says how the
  k-th login ends (failure, or success with a cookie list). `fetch(k)` or
  `api(k)` says how the k-th request ends.
- **The login ⇄ scrape recursion** has no bound in the program. A login scrapes
  over its new browser context, and a 401 in that scrape starts another login.
  The model passes a `fuel` budget: the number of logins a run may start. A run
  that needs more ends in `OutOfFuel`. `LoginFuelMonotone` and
  `ScrapeFuelMonotone` prove that a finished result never depends on the
  budget. `NoRejectionNeedsOneLogin` proves that one login suffices when the
  API never answers 401.
- **JavaScript values** that matter are kept distinct: `CreditValue` is
  `Undefined | Null | Amount(n)`. Two consequences follow from the code as
  written. First, `scrapeCredits` resolves to `undefined` when it had to log
  in, and `/api/cron-check` only tests `!== null`, so it answers 200 in that
  case even when the login failed. Second, `null < 3000` holds in JavaScript,
  so a `templateCredit` of `null` is cached and raises an alert.

Behaviour of the code worth knowing:

- The code never de-duplicates concurrent logins.
- It retries the template fetch only when the fetch throws `AUTH_FAILED`. The
  fetch it actually calls never throws, so that retry branch is dead code
  (`RealFetchNeverRetries`).
- The credit poller's 401 recovery has no retry bound: when every request is
  rejected and every login succeeds, no budget is enough
  (`PersistentRejectionNeverFinishes`).
- The template filter matches the upper-case status `DISABLED` exactly.

## Model

| member | source | states |
|---|---|---|
| `SessionStore.FirstTokenCookie` | api.js:21-25 | the value of the first cookie named `token`, and `None` exactly when no cookie has that name; later cookies of that name are never used |
| `SessionStore.IsSessionValid` | index.js:359-379 | a session is reused only when `auth.json` exists and `session-expiry.json` holds a date strictly after now; a missing file, an unreadable file or a NaN date reads as invalid (its partners are `StampSession` and `ValidityDownwardClosed`) |
| `SessionStore.ReadLatestCreditValue` | index.js:82-94 | the `credits` field of `latest-credit.json`, or `null` when the file is missing or unreadable (round trip with `RecordCredit`) |
| `SessionStore.StampSession` | index.js:187-196 | a successful login stores the cookie list and an expiry exactly 24 h after the login; the session is then valid at time t iff t is before that expiry; the credit cache is untouched |
| `SessionStore.ClearSession` | index.js:322-334 | after a 401 both `auth.json` and `session-expiry.json` are gone, the session is invalid at every time, and `latest-credit.json` and its reading are kept |
| `SessionStore.RecordCredit` | index.js:282-294 | writing a defined reading to `latest-credit.json` makes `readLatestCreditValue` return that same value; the session files and the session's validity are unchanged |
| `SessionStore.ClearSessionIdempotent` | index.js:323-331 | deleting the session files twice is the same as deleting them once |
| `SessionStore.ValidityAroundExpiry` | index.js:359-379 | a session stamped to expire at T is valid at T-1 s and invalid at T and at T+1 s (strict `>`) |
| `SessionStore.SessionValidityConditions` | index.js:359-379 | validity needs `auth.json` to exist but never reads it; a missing or unparseable expiry file or a NaN date gives false |
| `SessionStore.ValidityDownwardClosed` | index.js:367-372 | a session valid at some time is valid at every earlier time |
| `Templates.MakeApiCall` | components/fetchMissingTemplates.js:29-36 | an HTTP 401 becomes the error `AUTH_FAILED`; any other failure becomes `API call failed: ` plus its message; a reply passes its template list on |
| `Templates.AuthFailedOnlyFrom401` | components/fetchMissingTemplates.js:30-35 | the pipeline's error is `AUTH_FAILED` iff the call was answered 401; the two failure kinds cannot be confused |
| `Templates.LastStatusChange` | components/fetchMissingTemplates.js:45-47 | the timestamp of the last `statusJourney` entry, or `updatedAt` when the journey is missing or empty |
| `Templates.ProcessTemplates` | components/fetchMissingTemplates.js:43-55 | one record per raw template in the same order, with `name`, `rejectedReason` and `status` copied and `disabledTime` the last status change |
| `Templates.LatestJourneyEntryWins` | components/fetchMissingTemplates.js:45-47 | the disabled time is the timestamp of the last `statusJourney` entry |
| `Templates.EmptyJourneyUsesUpdatedAt` | components/fetchMissingTemplates.js:45-47 | with an empty status journey the disabled time is `updatedAt` |
| `Templates.KeepRecent` | components/fetchMissingTemplates.js:79-104 | the output is an order-preserving subsequence of the input; it contains every template that passes the filter and only such templates, each exactly as many times as in the input, so equal records are never merged |
| `Templates.FilterRecentTemplates` | components/fetchMissingTemplates.js:60-107 | the filter run at time now: `KeepRecent` with the cutoff now minus 4 h (see `WindowBoundary`) |
| `Templates.KeepRecentIdempotent` | components/fetchMissingTemplates.js:79-104 | for a fixed cutoff, filtering twice gives the same list as filtering once |
| `Templates.WindowBoundary` | components/fetchMissingTemplates.js:62-103 | a `DISABLED` template is kept iff its time parses and is at or after now minus 4 h; exactly 4 h ago is kept, 1 ms earlier is not, NaN never is |
| `Templates.OnlyDisabledSurvives` | components/fetchMissingTemplates.js:81-84 | a status other than exactly `DISABLED` (for example `disabled`) is always dropped |
| `Templates.ThreeHourAndOneHourSurvive` | components/fetchMissingTemplates.js:60-107 | from disabled templates changed 3 h, 5 h and 1 h ago and an enabled one changed 1 h ago, exactly the 3 h and 1 h disabled ones survive, in order |
| `Templates.FormatTemplateDates` | components/fetchMissingTemplates.js:109-120 | length and order kept; `name`, `rejectedReason` and `status` unchanged; only `disabledTime` is reformatted |
| `Templates.FormatWithIdentity` | components/fetchMissingTemplates.js:111-118 | with an identity formatter the list comes back unchanged, so no field other than the date is touched |
| `Templates.FetchMissingTemplates` | components/fetchMissingTemplates.js:123-149 | succeeds iff the call got a well-formed reply; on success the templates are the processed ones that pass the filter, in order, each with its date formatted, `totalCount` is their number, at most the number received, and all are `DISABLED`; on failure the error is the message the call raised, never thrown |
| `TemplateSession.GetTokenFromStorage` | api.js:11-32 | a missing or unparseable storage file gives no token; otherwise the first `token` cookie's value |
| `TemplateSession.Settle` | api.js:86-94 | a thrown error becomes `{success:false, error: message}` and a returned result passes through unchanged |
| `TemplateSession.FetchWithRetry` | api.js:57-87 | the first fetch uses the current token; a returned result is final; a non-`AUTH_FAILED` throw becomes its message; `AUTH_FAILED` is followed by the run's next login: if it fails the result is `Re-login failed`, if it leaves no usable token `Failed to get token after re-login`, otherwise one retried fetch with the new token settles the run; from there on at most one login and two fetches |
| `TemplateSession.GetTemplates` | api.js:35-95 | every path resolves to a result; with no usable stored token the first step is a login; otherwise it is a fetch with the stored token; at most two logins and two fetches; every fetch carries a non-empty token |
| `TemplateSession.InitialLoginFailure` | api.js:38-47 | no token and a failed login give `Initial login failed` after that single login, with no fetch |
| `TemplateSession.NoTokenAfterInitialLogin` | api.js:48-54 | a successful login that leaves no usable token gives `Failed to get token after login`, with no fetch |
| `TemplateSession.ReturningFetchNeverRelogs` | api.js:57-60 | when the fetch returns, its result is the run's result, with exactly one fetch and no re-login |
| `TemplateSession.RealFetch` | components/fetchMissingTemplates.js:123-148 | the fetch `getTemplates` calls never throws: it succeeds iff the API replied, and it returns the error `AUTH_FAILED` iff the API answered 401 |
| `TemplateSession.RealFetchNeverRetries` | api.js:57-85 | with the real fetch there is at most one login and one fetch; a 401 comes back as the result `AUTH_FAILED`, not as a retry |
| `TemplateSession.AuthFailedRetriesOnce` | api.js:62-84 | with a stored token, after a thrown `AUTH_FAILED`: a failed re-login gives `Re-login failed`; no token gives `Failed to get token after re-login`; otherwise one retried fetch with the new token, whose outcome is final even if it is `AUTH_FAILED` again |
| `TemplateSession.AuthFailedAfterInitialLogin` | api.js:38-84 | when the run logged in first and its fetch throws `AUTH_FAILED`, the second login decides the outcome: `Re-login failed`, `Failed to get token after re-login`, or a final retried fetch with the new token |
| `Credits.ShouldAlert` | index.js:472 | JavaScript's `templateCredit < 3000`: a number alerts strictly below 3000, `null` compares as 0 and alerts, `undefined` compares as NaN and never alerts (see `AlertThreshold`) |
| `Credits.SendToSlackWebhook` | index.js:469-490 | an alert is posted iff the decision says so; files and counters are never affected, since delivery errors are swallowed |
| `Credits.AlertThreshold` | index.js:472 | a balance alerts iff it is below 3000: 2999 alerts, 3000 does not |
| `Credits.SessionToken` | index.js:241-257 | the scrape's token is the first `token` cookie of the stored state, and only if it is non-empty |
| `Credits.ScrapeWithContext` | index.js:241-349 | no token gives `null` with no request; a defined `templateCredit` is returned, cached and passed to the alert decision, with the session files untouched; an undefined one or a failed request gives `null` and changes nothing; a 401 re-logs in and returns the credit cache; a defined reading makes one request and no login |
| `Credits.Login` | index.js:185-207 | a failed login only counts the attempt; a successful one stores the cookies and a 24 h expiry, and when its scrape gets no 401 it finishes with exactly one login, that storage state, and a session valid exactly until 24 h after the login; without a usable token it only stamps the session; with no budget nothing runs |
| `Credits.ScrapeCredits` | index.js:210-239 | with an invalid session the result is the login's `undefined`, never `null`, and the world is exactly the one that login leaves; with a valid session it is the scrape over the stored session; a valid session with no usable token gives `null` with nothing else done |
| `Credits.LoginFuelMonotone` | index.js:185-207 | a login that finishes within a budget finishes identically with any larger budget |
| `Credits.ScrapeFuelMonotone` | index.js:314-341 | the same for the scrape half of the 401 → login recursion (that the recursion itself has no bound is `PersistentRejectionNeverFinishes`) |
| `Credits.ScrapeCreditsFuelMonotone` | index.js:215-223 | the same for the entry point |
| `Credits.NoRejectionNeedsOneLogin` | index.js:313-342 | when the API never answers 401, a scrape finishes with no login and a login or entry-point run with one |
| `Credits.StaleReadingAfterFailedRelogin` | index.js:314-341 | a 401 and a failed re-login: both session files are gone, the credit cache is kept, and the result is the reading cached before the call |
| `Credits.RejectionRelogs` | index.js:314-341 | after a 401 the scrape finishes exactly when the re-login over the cleared session does, and then returns that login's world and whatever it left in the credit cache |
| `Credits.FreshReadingAfterRelogin` | index.js:314-341 | a 401, then a successful re-login whose scrape reads a defined value: the result is that fresh value, it is cached, and the new session is valid exactly until 24 h after the re-login |
| `Credits.PersistentRejectionNeverFinishes` | index.js:314-341 | when every credit request gets a 401 and every login succeeds with a token, a login runs out of every budget: the recovery loop has no bound |
| `Credits.LoginRecordsFreshReading` | index.js:185-201 | a successful login whose scrape reads a defined credit caches it, applies the alert decision to it, and leaves a session valid exactly until 24 h after the login |
| `Credits.LoginRunsScrape` | index.js:185-201 | a successful login always scrapes over its new context: it finishes exactly when that scrape does and leaves the world the scrape leaves, including a 401 and its nested re-login |
| `Credits.LoginRecoversFromRejectedScrape` | index.js:185-201 | a login whose own scrape gets a 401, followed by a re-login that reads a defined value: two logins, the second session stored and valid for 24 h, the value cached and passed to the alert decision |
| `Endpoints.CreditResponse` | index.js:439-450 | 200 with the reading iff it is not `null` (so `undefined` gives 200); otherwise 500 with the given error |
| `Endpoints.CreditsEndpoint` | index.js:22-79 | invalid session: run the login and return the world it leaves, then answer 200 with the cached reading unless it is `null`, else 500 `Could not retrieve credit value after login`, or 500 `Internal server error` when the 60 s race is lost; valid session: scrape, return the scrape's world, and answer 200 with the scrape's reading unless it is `null`, else 500 `Failed to retrieve credit value` |
| `Endpoints.CreditsEndpointTwoOutcomes` | index.js:22-79 | `/credits` answers only 200 or 500; a lost race always answers 500; a valid session without a usable token answers 500 with no request or login |
| `Endpoints.CronAuthorized` | index.js:426-430 | the guard is off when `CRON_SECRET` is unset or empty; otherwise the `x-vercel-cron-secret` header must equal it (see `NoSecretNoGuard`) |
| `Endpoints.CronCheck` | index.js:424-458 | a configured secret with a differing header gives 401 with no scraping and no change; otherwise scrape, 200 unless the reading is `null`, else 500 |
| `Endpoints.CronCheckThreeOutcomes` | index.js:426-450 | the cron endpoint answers only 401, 200 or 500, and 401 iff the secret guard fails |
| `Endpoints.NoSecretNoGuard` | index.js:428 | an unset or empty `CRON_SECRET` lets every request through |
| `Endpoints.CronCheckInvalidSessionSucceeds` | index.js:437-444 | with an invalid session the cron endpoint answers 200 with `undefined` credits, even when the login failed |
| `Endpoints.CronCheckMissingToken` | index.js:437-450 | a valid session without a usable token answers 500 with no request or login |

## Left out

- Browser automation: `auth.js`, and the login page navigation, form filling and selector fallback chain in `index.js:104-183`. A login is only its outcome: failure, or success with a cookie list.
- A browser launch failure. `chromium.launch` sits outside `login`'s `try`, so such a failure would reject `login()`. The model treats every login as resolving. In `scrapeCredits`' valid-session path, `chromium.launch` and `newContext` sit inside the outer `try` (`index.js:215-238`), so a failure there would resolve to `null` with no credit request. The model takes the scrape's own browser to open as well, and always makes the request when a token exists.
- `creditExtractor.js`: it only queries the page DOM and is never called. `components/slack.js`: it posts to Slack and is never called.
- `constants.js`: the two file paths are distinct keys of the abstract file store.
- HTTP details: axios headers, payloads and the assistant id. The `timestamp` fields of responses and of `latest-credit.json`. All console logging.
- Date and locale formatting: the IST log lines and the `en-GB` rendering are a `format` parameter. `setHours(±h)` is a fixed millisecond offset, so daylight-saving shifts of local time are not modelled.
- The clock during a call: one `now` is used throughout a top-level call. Time spent inside a login does not advance it.
- Express `listen`, `cron.schedule`, the startup run and the process error handlers (`index.js:97-100`, `index.js:382-421`).
- The 60-second `Promise.race` in `/credits`: it is a scripted `LoginFinished | TimedOut` outcome. On a timeout the login still runs to completion in the model.
- Failures of the file writes themselves (`writeFileSync`, `storageState`, `unlinkSync`): every write and delete is taken to succeed.
- JSON values other than `undefined`, `null` and integers for `templateCredit`, such as strings and fractions. Webhook delivery results, since they never influence anything.
- Templates.FetchMissingTemplates: the reply payload is taken to be well-formed. A `null` template entry or a `null` last `statusJourney` entry makes `processTemplates` throw a TypeError. The catch returns that error's message without the `API call failed: ` prefix. The model does not represent such payloads, so it does not produce these errors.
- Concurrency: there is no login de-duplication in the code, and overlapping requests are not modelled.
- Credits.Login: the credit recursion is stated under a fuel budget. Runs that would need more logins than the budget end in `OutOfFuel`, and nothing is claimed about them.

=== FILE: credits.dfy ===
/**
 The credit poller: browser login, credit scraping over the stored session,
 the low-credit alert and the recovery from a rejected token.

 A login runs the credit scrape over its fresh browser context, and a scrape
 that gets a 401 deletes the session files and logs in again, so the two
 recurse into each other with no bound on the number of rounds. The model
 threads a `fuel` budget through that recursion: it is the number of logins
 a run may start, and a run that would start one more ends in `OutOfFuel`.
 Every statement about a finished run holds whatever the budget was.

 Logins and API replies are scripted: `Oracle.login(k)` is how the k-th
 login ends and `Oracle.api(k)` how the k-th credit request ends, counted
 over the whole life of the world.
 */
module Credits {
  import opened Wrappers
  import opened SessionStore

  /** Alerts fire strictly below this balance. */
  const ALERT_THRESHOLD := 3000

  /** The body of a successful credit reply: missing/empty, or an object with its `templateCredit` field. */
  datatype ApiBody = EmptyBody | Body(templateCredit: CreditValue)

  /** How one credit request ends: a reply, a 401, or any other failure (other status, no response). */
  datatype CreditReply = Answered(body: ApiBody) | Unauthorized | RequestFailed

  datatype Oracle = Oracle(login: nat -> LoginOutcome, api: nat -> CreditReply)

  /**
   The world a run sees and changes: the files, how many logins and credit
   requests have been made so far, and every alert posted, in order.
   */
  datatype World = World(files: Files, logins: nat, apiCalls: nat, alerts: seq<CreditValue>)

  /** A run that finished with a value, or one that ran out of login budget. */
  datatype Fuelled<T> = Done(value: T) | OutOfFuel

  /** What a scrape resolves to and the world it leaves. */
  datatype Scraped = Scraped(reading: CreditValue, world: World)

  /**
   The alert decision, with JavaScript's coercion of `<`: a number alerts
   strictly below 3000, `null` compares as 0 and so alerts, `undefined`
   compares as NaN and never does.
   */
  predicate ShouldAlert(v: CreditValue) {
    match v
    case Amount(n) => n < ALERT_THRESHOLD
    case Null => true
    case Undefined => false
  }

  /**
   Posting a reading to the webhook: an alert is appended exactly when the
   decision says so. Delivery failures are swallowed, so nothing else in
   the world depends on how the post went.
   */
  function SendToSlackWebhook(w: World, v: CreditValue): (r: World)
    ensures r.files == w.files && r.logins == w.logins && r.apiCalls == w.apiCalls
    ensures |r.alerts| == |w.alerts| + 1 <==> ShouldAlert(v)
    ensures |r.alerts| >= |w.alerts| && r.alerts[..|w.alerts|] == w.alerts
    ensures ShouldAlert(v) ==> r.alerts[|w.alerts|] == v
  {
    if ShouldAlert(v) then w.(alerts := w.alerts + [v]) else w
  }

  /** The token the scrape sends: the first `token` cookie of the stored state, if it is non-empty. */
  function SessionToken(f: Files): (r: Option<string>)
    ensures r.Some? ==> r.value != ""
    ensures r.Some? ==> f.auth.Some? && f.auth.value.StorageState? && FirstTokenCookie(f.auth.value.cookies) == r
    ensures r.None? && f.auth.Some? && f.auth.value.StorageState? ==> !Truthy(FirstTokenCookie(f.auth.value.cookies))
  {
    match f.auth
    case Some(StorageState(cookies)) =>
      var token := FirstTokenCookie(cookies);
      if Truthy(token) then token else None
    case _ => None
  }

  /**
   The scrape once a browser context exists (either handed over by a login
   or opened from a valid stored session). Without a token it resolves to
   `null` and calls nothing. A reply with a defined `templateCredit` records
   it, posts it to the alert decision and resolves to it. A 401 removes both
   session files, logs in again and resolves to whatever the credit cache
   holds afterwards. Anything else resolves to `null`.
   */
  function ScrapeWithContext(o: Oracle, w: World, now: int, fuel: nat): (r: Fuelled<Scraped>)
    decreases fuel, 1
    ensures SessionToken(w.files).None? ==> r == Done(Scraped(Null, w))
    ensures r.Done? ==> r.value.world.apiCalls >= w.apiCalls && r.value.world.logins >= w.logins
    ensures r.Done? && SessionToken(w.files).Some? ==> r.value.world.apiCalls > w.apiCalls
    ensures r.Done? && SessionToken(w.files).Some? && o.api(w.apiCalls).Answered? ==>
      var s := r.value;
      var body := o.api(w.apiCalls).body;
      if body.Body? && body.templateCredit != Undefined then
        && s.reading == body.templateCredit
        && s.world.logins == w.logins && s.world.apiCalls == w.apiCalls + 1
        && ReadLatestCreditValue(s.world.files) == body.templateCredit
        && s.world.files.auth == w.files.auth && s.world.files.expiry == w.files.expiry
        && s.world.alerts == w.alerts + (if ShouldAlert(body.templateCredit) then [body.templateCredit] else [])
      else
        s == Scraped(Null, w.(apiCalls := w.apiCalls + 1))
    ensures r.Done? && SessionToken(w.files).Some? && o.api(w.apiCalls).RequestFailed? ==>
      r.value == Scraped(Null, w.(apiCalls := w.apiCalls + 1))
    ensures r.Done? && SessionToken(w.files).Some? && o.api(w.apiCalls).Unauthorized? ==>
      r.value.reading == ReadLatestCreditValue(r.value.world.files) && r.value.world.logins > w.logins
  {
    match SessionToken(w.files)
    case None => Done(Scraped(Null, w))
    case Some(_) =>
      var w1 := w.(apiCalls := w.apiCalls + 1);
      match o.api(w.apiCalls)
      case RequestFailed => Done(Scraped(Null, w1))
      case Answered(body) =>
        if body.Body? && body.templateCredit != Undefined then
          var v := body.templateCredit;
          var w2 := SendToSlackWebhook(w1.(files := RecordCredit(w1.files, v)), v);
          assert w2.alerts == w.alerts + (if ShouldAlert(v) then [v] else []);
          Done(Scraped(v, w2))
        else
          Done(Scraped(Null, w1))
      case Unauthorized =>
        match Login(o, w1.(files := ClearSession(w1.files)), now, fuel)
        case OutOfFuel => OutOfFuel
        case Done(w2) => Done(Scraped(ReadLatestCreditValue(w2.files), w2))
  }

  /**
   One browser login. Whatever happens it resolves to `undefined`, so only
   the world it leaves is returned. A successful login stores the session,
   stamps it to expire 24 hours later and scrapes credits over its context.
   */
  function Login(o: Oracle, w: World, now: int, fuel: nat): (r: Fuelled<World>)
    decreases fuel, 0
    ensures fuel == 0 ==> r.OutOfFuel?
    ensures r.Done? ==> r.value.logins > w.logins && r.value.apiCalls >= w.apiCalls
    ensures o.login(w.logins) == LoginFailed && fuel > 0 ==> r == Done(w.(logins := w.logins + 1))
    ensures fuel > 0 && o.login(w.logins).LoginSucceeded? && !Truthy(FirstTokenCookie(o.login(w.logins).cookies)) ==>
      r == Done(w.(logins := w.logins + 1, files := StampSession(w.files, o.login(w.logins).cookies, now)))
    ensures fuel > 0 && o.login(w.logins).LoginSucceeded? && !o.api(w.apiCalls).Unauthorized? ==>
      && r.Done?
      && r.value.files.auth == Some(StorageState(o.login(w.logins).cookies))
      && (forall t :: IsSessionValid(r.value.files, t) <==> t < now + SESSION_LIFETIME_MS)
      && r.value.logins == w.logins + 1
  {
    if fuel == 0 then OutOfFuel
    else
      var w1 := w.(logins := w.logins + 1);
      match o.login(w.logins)
      case LoginFailed => Done(w1)
      case LoginSucceeded(cookies) =>
        match ScrapeWithContext(o, w1.(files := StampSession(w1.files, cookies, now)), now, fuel - 1)
        case OutOfFuel => OutOfFuel
        case Done(s) => Done(s.world)
  }

  /**
   The scrape entry point used by the schedule and both endpoints. With no
   valid session it runs a login and resolves to that login's result,
   which is `undefined`; otherwise it scrapes over the stored session.
   */
  function ScrapeCredits(o: Oracle, w: World, now: int, fuel: nat): (r: Fuelled<Scraped>)
    ensures r.Done? && !IsSessionValid(w.files, now) ==> r.value.reading == Undefined && r.value.world.logins > w.logins
    ensures IsSessionValid(w.files, now) && SessionToken(w.files).None? ==> r == Done(Scraped(Null, w))
    ensures !IsSessionValid(w.files, now) ==>
      && (r.Done? <==> Login(o, w, now, fuel).Done?)
      && (r.Done? ==> r.value.world == Login(o, w, now, fuel).value)
    ensures IsSessionValid(w.files, now) ==> r == ScrapeWithContext(o, w, now, fuel)
  {
    if !IsSessionValid(w.files, now) then
      match Login(o, w, now, fuel)
      case OutOfFuel => OutOfFuel
      case Done(w1) => Done(Scraped(Undefined, w1))
    else
      ScrapeWithContext(o, w, now, fuel)
  }

  // ---------------------------------------------------------------------------
  // Properties
  // ---------------------------------------------------------------------------

  /** The threshold is strict: 2999 credits alert, 3000 do not, and in general a balance alerts iff it is below 3000. */
  lemma AlertThreshold(n: int)
    ensures ShouldAlert(Amount(n)) <==> n < 3000
    ensures ShouldAlert(Amount(2999)) && !ShouldAlert(Amount(3000))
  {
  }

  /** A run that finishes within some login budget finishes identically with any larger budget. */
  lemma {:induction false} LoginFuelMonotone(o: Oracle, w: World, now: int, fuel: nat, more: nat)
    requires fuel <= more
    requires Login(o, w, now, fuel).Done?
    ensures Login(o, w, now, more) == Login(o, w, now, fuel)
    decreases fuel, 0
  {
    match o.login(w.logins)
    case LoginFailed =>
    case LoginSucceeded(cookies) =>
      var w1 := w.(logins := w.logins + 1);
      ScrapeFuelMonotone(o, w1.(files := StampSession(w1.files, cookies, now)), now, fuel - 1, more - 1);
  }

  /** The scrape half of the budget argument. */
  lemma {:induction false} ScrapeFuelMonotone(o: Oracle, w: World, now: int, fuel: nat, more: nat)
    requires fuel <= more
    requires ScrapeWithContext(o, w, now, fuel).Done?
    ensures ScrapeWithContext(o, w, now, more) == ScrapeWithContext(o, w, now, fuel)
    decreases fuel, 1
  {
    if SessionToken(w.files).Some? && o.api(w.apiCalls).Unauthorized? {
      var w1 := w.(apiCalls := w.apiCalls + 1);
      LoginFuelMonotone(o, w1.(files := ClearSession(w1.files)), now, fuel, more);
    }
  }

  /** The entry point inherits the budget argument: more logins allowed never change a finished result. */
  lemma ScrapeCreditsFuelMonotone(o: Oracle, w: World, now: int, fuel: nat, more: nat)
    requires fuel <= more
    requires ScrapeCredits(o, w, now, fuel).Done?
    ensures ScrapeCredits(o, w, now, more) == ScrapeCredits(o, w, now, fuel)
  {
    if !IsSessionValid(w.files, now) {
      LoginFuelMonotone(o, w, now, fuel, more);
    } else {
      ScrapeFuelMonotone(o, w, now, fuel, more);
    }
  }

  /**
   The recursion only goes deeper on a 401: when the API never answers 401,
   a scrape needs no login at all and a login or an entry-point run needs one.
   */
  lemma NoRejectionNeedsOneLogin(o: Oracle, w: World, now: int)
    requires forall k: nat :: !o.api(k).Unauthorized?
    ensures ScrapeWithContext(o, w, now, 0).Done?
    ensures Login(o, w, now, 1).Done?
    ensures ScrapeCredits(o, w, now, 1).Done?
  {
  }

  /**
   A 401 followed by a failed re-login: both session files are gone, the
   credit cache is untouched, and the scrape resolves to the cached reading
   from before, however stale it is.
   */
  lemma StaleReadingAfterFailedRelogin(o: Oracle, w: World, now: int, fuel: nat)
    requires fuel > 0
    requires SessionToken(w.files).Some?
    requires o.api(w.apiCalls) == Unauthorized
    requires o.login(w.logins) == LoginFailed
    ensures ScrapeWithContext(o, w, now, fuel) ==
      Done(Scraped(ReadLatestCreditValue(w.files), World(ClearSession(w.files), w.logins + 1, w.apiCalls + 1, w.alerts)))
    ensures ScrapeWithContext(o, w, now, fuel).value.world.files.credit == w.files.credit
    ensures forall t :: !IsSessionValid(ScrapeWithContext(o, w, now, fuel).value.world.files, t)
  {
  }

  /**
   A successful login whose scrape gets a defined credit reading: the
   reading is cached, the alert decision is applied to it, and the new
   session is valid exactly until 24 hours after the login.
   */
  lemma LoginRecordsFreshReading(o: Oracle, w: World, now: int, fuel: nat, cookies: seq<Cookie>, v: CreditValue)
    requires fuel > 0
    requires o.login(w.logins) == LoginSucceeded(cookies)
    requires Truthy(FirstTokenCookie(cookies))
    requires o.api(w.apiCalls) == Answered(Body(v)) && v != Undefined
    ensures Login(o, w, now, fuel).Done?
    ensures ReadLatestCreditValue(Login(o, w, now, fuel).value.files) == v
    ensures forall t :: IsSessionValid(Login(o, w, now, fuel).value.files, t) <==> t < now + SESSION_LIFETIME_MS
    ensures Login(o, w, now, fuel).value.alerts == w.alerts + (if ShouldAlert(v) then [v] else [])
  {
  }

  /**
   The 401 recovery in full: after a rejected request the scrape finishes
   exactly when the re-login over the cleared session does, and then
   resolves to what that login left in the credit cache, in the world it left.
   */
  lemma RejectionRelogs(o: Oracle, w: World, now: int, fuel: nat)
    requires SessionToken(w.files).Some? && o.api(w.apiCalls).Unauthorized?
    ensures var relogin := Login(o, w.(apiCalls := w.apiCalls + 1, files := ClearSession(w.files)), now, fuel);
      && (ScrapeWithContext(o, w, now, fuel).Done? <==> relogin.Done?)
      && (relogin.Done? ==>
            ScrapeWithContext(o, w, now, fuel).value == Scraped(ReadLatestCreditValue(relogin.value.files), relogin.value))
  {
  }

  /**
   A 401 followed by a successful re-login whose own scrape reads a defined
   value: the scrape resolves to that fresh value, caches it, and leaves a
   session valid exactly until 24 hours after the re-login.
   */
  lemma FreshReadingAfterRelogin(o: Oracle, w: World, now: int, fuel: nat, cookies: seq<Cookie>, v: CreditValue)
    requires fuel > 0
    requires SessionToken(w.files).Some?
    requires o.api(w.apiCalls) == Unauthorized
    requires o.login(w.logins) == LoginSucceeded(cookies) && Truthy(FirstTokenCookie(cookies))
    requires o.api(w.apiCalls + 1) == Answered(Body(v)) && v != Undefined
    ensures ScrapeWithContext(o, w, now, fuel).Done?
    ensures ScrapeWithContext(o, w, now, fuel).value.reading == v
    ensures ReadLatestCreditValue(ScrapeWithContext(o, w, now, fuel).value.world.files) == v
    ensures forall t :: IsSessionValid(ScrapeWithContext(o, w, now, fuel).value.world.files, t) <==> t < now + SESSION_LIFETIME_MS
  {
  }

  /**
   The 401 recovery has no retry bound: when every credit request is
   rejected and every login succeeds with a token, the login ⇄ scrape
   recursion never finishes, whatever budget is given.
   */
  lemma {:induction false} PersistentRejectionNeverFinishes(o: Oracle, w: World, now: int, fuel: nat)
    requires forall k: nat :: o.api(k) == Unauthorized
    requires forall k: nat :: o.login(k).LoginSucceeded? && Truthy(FirstTokenCookie(o.login(k).cookies))
    ensures Login(o, w, now, fuel).OutOfFuel?
    decreases fuel
  {
    if fuel > 0 {
      var w1 := w.(logins := w.logins + 1);
      var w2 := w1.(files := StampSession(w1.files, o.login(w.logins).cookies, now));
      assert SessionToken(w2.files).Some?;
      var w3 := w2.(apiCalls := w2.apiCalls + 1);
      PersistentRejectionNeverFinishes(o, w3.(files := ClearSession(w3.files)), now, fuel - 1);
    }
  }

  /**
   A successful login always scrapes over its fresh context: it finishes
   exactly when that scrape does and leaves the world the scrape leaves,
   whatever the scrape ran into, a 401 and its nested re-login included.
   */
  lemma LoginRunsScrape(o: Oracle, w: World, now: int, fuel: nat, cookies: seq<Cookie>)
    requires fuel > 0
    requires o.login(w.logins) == LoginSucceeded(cookies)
    ensures var scrape := ScrapeWithContext(o, w.(logins := w.logins + 1, files := StampSession(w.files, cookies, now)), now, fuel - 1);
      && (Login(o, w, now, fuel).Done? <==> scrape.Done?)
      && (scrape.Done? ==> Login(o, w, now, fuel).value == scrape.value.world)
  {
  }

  /**
   A login whose own scrape is rejected recovers through the nested
   re-login: when that one reads a defined value, the run ends after two
   logins with the second session stored and valid for 24 hours, the value
   cached, and the alert decision applied to it.
   */
  lemma LoginRecoversFromRejectedScrape(
    o: Oracle, w: World, now: int, fuel: nat, first: seq<Cookie>, second: seq<Cookie>, v: CreditValue)
    requires fuel > 1
    requires o.login(w.logins) == LoginSucceeded(first) && Truthy(FirstTokenCookie(first))
    requires o.api(w.apiCalls) == Unauthorized
    requires o.login(w.logins + 1) == LoginSucceeded(second) && Truthy(FirstTokenCookie(second))
    requires o.api(w.apiCalls + 1) == Answered(Body(v)) && v != Undefined
    ensures Login(o, w, now, fuel).Done? && Login(o, w, now, fuel).value.logins == w.logins + 2
    ensures Login(o, w, now, fuel).value.files.auth == Some(StorageState(second))
    ensures ReadLatestCreditValue(Login(o, w, now, fuel).value.files) == v
    ensures forall t :: IsSessionValid(Login(o, w, now, fuel).value.files, t) <==> t < now + SESSION_LIFETIME_MS
    ensures Login(o, w, now, fuel).value.alerts == w.alerts + (if ShouldAlert(v) then [v] else [])
  {
    var w1 := w.(logins := w.logins + 1, files := StampSession(w.files, first, now));
    assert SessionToken(w1.files).Some?;
    RejectionRelogs(o, w1, now, fuel - 1);
    var w2 := w1.(apiCalls := w1.apiCalls + 1, files := ClearSession(w1.files));
    assert w2.logins == w.logins + 1 && w2.apiCalls == w.apiCalls + 1;
    LoginRecordsFreshReading(o, w2, now, fuel - 1, second, v);
  }
}

=== FILE: endpoints.dfy ===
/**
 The two HTTP endpoints of the credit poller and how their outcomes map to
 responses. The `timestamp` field of a success body is left out.
 */
module Endpoints {
  import opened Wrappers
  import opened SessionStore
  import opened Credits
  import opened Http

  const NO_CREDIT_AFTER_LOGIN := "Could not retrieve credit value after login"
  const NO_CREDIT := "Failed to retrieve credit value"
  const INTERNAL_ERROR := "Internal server error"
  const UNAUTHORIZED_CRON := "Unauthorized cron request"

  /** `{success: true, credits}` or `{success: false, error}`. */
  datatype Body = CreditsBody(credits: CreditValue) | ErrorBody(error: string)

  datatype Response = Response(status: int, body: Body)

  /** Whether the login awaited by `/credits` finished before the 60-second timer fired. */
  datatype Race = LoginFinished | TimedOut

  /** An answer together with the world the request left. */
  datatype Handled = Handled(response: Response, world: World)

  /** A reading answers 200 exactly when it is not `null`; `undefined` passes that test. */
  function CreditResponse(v: CreditValue, error: string): (r: Response)
    ensures r.status == OK <==> v != Null
    ensures r.status == OK ==> r.body == CreditsBody(v)
    ensures r.status != OK ==> r == Response(SERVER_ERROR, ErrorBody(error))
  {
    if v != Null then Response(OK, CreditsBody(v)) else Response(SERVER_ERROR, ErrorBody(error))
  }

  /**
   `GET /credits`. Without a valid session it logs in and answers from the
   credit cache; a login that loses the race against the timer answers 500
   (the login itself keeps running and its effects still land). With a
   valid session it scrapes and answers with the reading.
   */
  function CreditsEndpoint(o: Oracle, w: World, now: int, fuel: nat, race: Race): (r: Fuelled<Handled>)
    ensures r.Done? && !IsSessionValid(w.files, now) ==>
      Login(o, w, now, fuel).Done? && r.value.world == Login(o, w, now, fuel).value
    ensures r.Done? && !IsSessionValid(w.files, now) && race == TimedOut ==>
      r.value.response == Response(SERVER_ERROR, ErrorBody(INTERNAL_ERROR))
    ensures r.Done? && !IsSessionValid(w.files, now) && race == LoginFinished ==>
      && (r.value.response.status == OK <==> ReadLatestCreditValue(r.value.world.files) != Null)
      && (r.value.response.status == OK ==> r.value.response.body == CreditsBody(ReadLatestCreditValue(r.value.world.files)))
      && (r.value.response.status != OK ==> r.value.response == Response(SERVER_ERROR, ErrorBody(NO_CREDIT_AFTER_LOGIN)))
    ensures r.Done? && IsSessionValid(w.files, now) ==>
      && ScrapeCredits(o, w, now, fuel).Done?
      && var s := ScrapeCredits(o, w, now, fuel).value;
         (r.value.response.status == OK <==> s.reading != Null)
         && r.value.world == s.world
         && (r.value.response.status == OK ==> r.value.response.body == CreditsBody(s.reading))
         && (r.value.response.status != OK ==> r.value.response == Response(SERVER_ERROR, ErrorBody(NO_CREDIT)))
  {
    if !IsSessionValid(w.files, now) then
      match Login(o, w, now, fuel)
      case OutOfFuel => OutOfFuel
      case Done(w1) =>
        if race == TimedOut then Done(Handled(Response(SERVER_ERROR, ErrorBody(INTERNAL_ERROR)), w1))
        else Done(Handled(CreditResponse(ReadLatestCreditValue(w1.files), NO_CREDIT_AFTER_LOGIN), w1))
    else
      match ScrapeCredits(o, w, now, fuel)
      case OutOfFuel => OutOfFuel
      case Done(s) => Done(Handled(CreditResponse(s.reading, NO_CREDIT), s.world))
  }

  /** The shared-secret guard: on when a non-empty secret is configured, and then the header must equal it. */
  predicate CronAuthorized(secret: Option<string>, header: Option<string>) {
    !Truthy(secret) || header == secret
  }

  /**
   `GET /api/cron-check`. A request failing the secret guard answers 401
   without scraping and leaves the world untouched; otherwise it scrapes
   and answers 200 unless the reading is `null`.
   */
  function CronCheck(o: Oracle, w: World, now: int, fuel: nat, secret: Option<string>, header: Option<string>)
    : (r: Fuelled<Handled>)
    ensures !CronAuthorized(secret, header) ==> r == Done(Handled(Response(UNAUTHORIZED, ErrorBody(UNAUTHORIZED_CRON)), w))
    ensures r.Done? && CronAuthorized(secret, header) ==>
      && ScrapeCredits(o, w, now, fuel).Done?
      && var s := ScrapeCredits(o, w, now, fuel).value;
         && r.value.world == s.world
         && (r.value.response.status == OK <==> s.reading != Null)
         && (r.value.response.status == OK ==> r.value.response.body == CreditsBody(s.reading))
         && (r.value.response.status != OK ==> r.value.response == Response(SERVER_ERROR, ErrorBody(NO_CREDIT)))
  {
    if !CronAuthorized(secret, header) then
      Done(Handled(Response(UNAUTHORIZED, ErrorBody(UNAUTHORIZED_CRON)), w))
    else
      match ScrapeCredits(o, w, now, fuel)
      case OutOfFuel => OutOfFuel
      case Done(s) => Done(Handled(CreditResponse(s.reading, NO_CREDIT), s.world))
  }

  // ---------------------------------------------------------------------------
  // Properties
  // ---------------------------------------------------------------------------

  /** The cron endpoint has exactly three answers: 401, 200 and 500. */
  lemma CronCheckThreeOutcomes(o: Oracle, w: World, now: int, fuel: nat, secret: Option<string>, header: Option<string>)
    requires CronCheck(o, w, now, fuel, secret, header).Done?
    ensures CronCheck(o, w, now, fuel, secret, header).value.response.status in {UNAUTHORIZED, OK, SERVER_ERROR}
    ensures CronCheck(o, w, now, fuel, secret, header).value.response.status == UNAUTHORIZED <==> !CronAuthorized(secret, header)
  {
  }

  /** With no secret configured, or an empty one, every request passes the guard. */
  lemma NoSecretNoGuard(secret: Option<string>, header: Option<string>)
    requires secret == None || secret == Some("")
    ensures CronAuthorized(secret, header)
  {
  }

  /**
   With an invalid session the cron endpoint answers 200: the scrape
   resolves to the login's `undefined`, which is not `null`, even when the
   login itself failed.
   */
  lemma CronCheckInvalidSessionSucceeds(o: Oracle, w: World, now: int, fuel: nat, header: Option<string>)
    requires !IsSessionValid(w.files, now)
    requires CronCheck(o, w, now, fuel, None, header).Done?
    ensures CronCheck(o, w, now, fuel, None, header).value.response == Response(OK, CreditsBody(Undefined))
  {
  }

  /** A valid session whose stored state carries no usable token: 500 without any request or login. */
  lemma CronCheckMissingToken(o: Oracle, w: World, now: int, fuel: nat, secret: Option<string>, header: Option<string>)
    requires CronAuthorized(secret, header)
    requires IsSessionValid(w.files, now) && SessionToken(w.files).None?
    ensures CronCheck(o, w, now, fuel, secret, header) == Done(Handled(Response(SERVER_ERROR, ErrorBody(NO_CREDIT)), w))
  {
  }

  /**
   `/credits` has exactly two answers, 200 and 500. A timed-out login always
   answers 500. A valid session whose stored state has no usable token
   answers 500 without any request or login.
   */
  lemma CreditsEndpointTwoOutcomes(o: Oracle, w: World, now: int, fuel: nat, race: Race)
    requires CreditsEndpoint(o, w, now, fuel, race).Done?
    ensures CreditsEndpoint(o, w, now, fuel, race).value.response.status in {OK, SERVER_ERROR}
    ensures !IsSessionValid(w.files, now) && race == TimedOut ==>
      CreditsEndpoint(o, w, now, fuel, race).value.response.status == SERVER_ERROR
    ensures IsSessionValid(w.files, now) && SessionToken(w.files).None? ==>
      CreditsEndpoint(o, w, now, fuel, race) == Done(Handled(Response(SERVER_ERROR, ErrorBody(NO_CREDIT)), w))
  {
  }
}

=== FILE: http.dfy ===
/** The HTTP status codes the program sends or reacts to. */
module Http {
  const OK := 200

  /** A rejected token, or a cron request failing the secret guard. */
  const UNAUTHORIZED := 401

  const SERVER_ERROR := 500
}

=== FILE: session_store.dfy ===
/**
 The persisted session state shared by the template poller and the credit poller.

 Three JSON files are kept next to the program: the browser's storage state
 (`auth.json`, holding the cookie list), the session expiry stamp
 (`session-expiry.json`) and the last credit reading (`latest-credit.json`).
 Each is a distinct key of an abstract file store: a file is either absent,
 present but unparseable, or present with the content the program reads.
 */
module SessionStore {
  import opened Wrappers

  /** Name of the cookie that carries the bearer token. */
  const TOKEN_COOKIE := "token"

  /** A session stays valid for 24 hours after a successful login, in milliseconds. */
  const SESSION_LIFETIME_MS := 24 * 60 * 60 * 1000

  datatype Cookie = Cookie(name: string, value: string)

  /** `auth.json`: a storage state whose `cookies` list may be missing (read as empty). */
  datatype AuthContent = StorageState(cookies: seq<Cookie>) | MalformedAuth

  /**
   `session-expiry.json`: the stored `expiry` field, already turned into epoch
   milliseconds; `None` stands for a missing or unparseable date, which
   JavaScript turns into NaN.
   */
  datatype ExpiryContent = ExpiryStamp(expiry: Option<int>) | MalformedExpiry

  /**
   A JavaScript value as far as the credit pipeline distinguishes it:
   `undefined`, `null`, or a number of credits.
   */
  datatype CreditValue = Undefined | Null | Amount(credits: int)

  /** `latest-credit.json`: the stored `credits` field. */
  datatype CreditContent = CreditRecord(credits: CreditValue) | MalformedCredit

  datatype Files = Files(auth: Option<AuthContent>, expiry: Option<ExpiryContent>, credit: Option<CreditContent>)

  /** What one browser login ends in: a failure, or the cookie list of the new session. */
  datatype LoginOutcome = LoginFailed | LoginSucceeded(cookies: seq<Cookie>)

  /** JavaScript truthiness of a looked-up token: `null` and the empty string are both false. */
  predicate Truthy(token: Option<string>) {
    token.Some? && token.value != ""
  }

  /** No cookie before position `i` is named `token`. */
  predicate NoTokenBefore(cookies: seq<Cookie>, i: int)
    requires 0 <= i <= |cookies|
  {
    forall j :: 0 <= j < i ==> cookies[j].name != TOKEN_COOKIE
  }

  /**
   The value of the first cookie named `token`, or `None` when there is none.
   Later cookies of the same name are never consulted, even when the first
   one's value is empty.
   */
  function FirstTokenCookie(cookies: seq<Cookie>): (r: Option<string>)
    ensures r.None? <==> NoTokenBefore(cookies, |cookies|)
    ensures r.Some? ==>
      exists i :: 0 <= i < |cookies| && cookies[i] == Cookie(TOKEN_COOKIE, r.value) && NoTokenBefore(cookies, i)
  {
    if |cookies| == 0 then None
    else if cookies[0].name == TOKEN_COOKIE then
      assert cookies[0] == Cookie(TOKEN_COOKIE, cookies[0].value) && NoTokenBefore(cookies, 0);
      Some(cookies[0].value)
    else
      var r := FirstTokenCookie(cookies[1..]);
      if r.Some? then
        var i :| 0 <= i < |cookies[1..]| && cookies[1..][i] == Cookie(TOKEN_COOKIE, r.value) && NoTokenBefore(cookies[1..], i);
        assert cookies[i + 1] == Cookie(TOKEN_COOKIE, r.value) && NoTokenBefore(cookies, i + 1);
        r
      else
        r
  }

  /**
   The session check made before reusing a stored session: the storage state
   exists, the expiry file exists and holds a date strictly after `now`.
   A missing file, an unparseable file or a NaN date all read as invalid.
   */
  predicate IsSessionValid(f: Files, now: int) {
    && f.auth.Some?
    && f.expiry.Some?
    && match f.expiry.value
       case ExpiryStamp(Some(expiry)) => expiry > now
       case ExpiryStamp(None) => false
       case MalformedExpiry => false
  }

  /** The `credits` field of `latest-credit.json`; `null` when the file is absent or unparseable. */
  function ReadLatestCreditValue(f: Files): CreditValue {
    match f.credit
    case Some(CreditRecord(v)) => v
    case Some(MalformedCredit) => Null
    case None => Null
  }

  /**
   What a successful login writes: the storage state with the new cookies,
   then an expiry exactly 24 hours after the login time. The new session is
   valid at every instant before that expiry and at none after it.
   */
  function StampSession(f: Files, cookies: seq<Cookie>, now: int): (r: Files)
    ensures r.auth == Some(StorageState(cookies))
    ensures forall t :: IsSessionValid(r, t) <==> t < now + SESSION_LIFETIME_MS
    ensures r.credit == f.credit
  {
    f.(auth := Some(StorageState(cookies)), expiry := Some(ExpiryStamp(Some(now + SESSION_LIFETIME_MS))))
  }

  /**
   The reaction to a rejected token: both session files are removed (each
   only if present, so removing twice is harmless). The credit cache is kept.
   */
  function ClearSession(f: Files): (r: Files)
    ensures r.auth.None? && r.expiry.None?
    ensures forall t :: !IsSessionValid(r, t)
    ensures r.credit == f.credit
    ensures ReadLatestCreditValue(r) == ReadLatestCreditValue(f)
  {
    f.(auth := None, expiry := None)
  }

  /** Recording a defined credit reading; reading the cache back yields that same value. */
  function RecordCredit(f: Files, v: CreditValue): (r: Files)
    requires v != Undefined
    ensures ReadLatestCreditValue(r) == v
    ensures r.auth == f.auth && r.expiry == f.expiry
    ensures forall t :: IsSessionValid(r, t) <==> IsSessionValid(f, t)
  {
    f.(credit := Some(CreditRecord(v)))
  }

  /** Clearing an already cleared session changes nothing. */
  lemma ClearSessionIdempotent(f: Files)
    ensures ClearSession(ClearSession(f)) == ClearSession(f)
  {
  }

  /** Given a session stamped to expire at T, it is valid one second before T and invalid one second after. */
  lemma ValidityAroundExpiry(f: Files, cookies: seq<Cookie>, loginTime: int)
    ensures IsSessionValid(StampSession(f, cookies, loginTime), loginTime + SESSION_LIFETIME_MS - 1000)
    ensures !IsSessionValid(StampSession(f, cookies, loginTime), loginTime + SESSION_LIFETIME_MS)
    ensures !IsSessionValid(StampSession(f, cookies, loginTime), loginTime + SESSION_LIFETIME_MS + 1000)
  {
  }

  /**
   What decides validity: only the existence of the storage state matters
   (its content is not read), and an expiry file that is missing,
   unparseable or holds a NaN date makes the session invalid at every time.
   */
  lemma SessionValidityConditions(f: Files, now: int, content: AuthContent)
    ensures IsSessionValid(f, now) <==> IsSessionValid(f.(auth := Some(content)), now) && f.auth.Some?
    ensures f.auth.None? ==> !IsSessionValid(f, now)
    ensures f.expiry.None? || f.expiry == Some(MalformedExpiry) || f.expiry == Some(ExpiryStamp(None)) ==>
      !IsSessionValid(f, now)
  {
  }

  /** A session valid at some time was valid at every earlier time: once lapsed, it stays lapsed. */
  lemma ValidityDownwardClosed(f: Files, earlier: int, later: int)
    requires earlier <= later
    requires IsSessionValid(f, later)
    ensures IsSessionValid(f, earlier)
  {
  }
}

=== FILE: template_session.dfy ===
/**
 The template poller's session handling: read the token from the stored
 browser state, log in first when there is none, fetch, and on an
 `AUTH_FAILED` error log in once more and fetch once more.

 Logins and fetches are scripted: `Oracle.login(k)` is how the k-th login
 of the run ends and `Oracle.fetch(k)` how the k-th fetch ends. A fetch
 either returns a result or throws an error with a message; the token is
 rejected when that message is exactly `AUTH_FAILED`.
 */
module TemplateSession {
  import opened Wrappers
  import opened SessionStore
  import Templates
  import Http

  datatype FetchOutcome = Returned(result: Templates.FetchResult) | Threw(message: string)

  datatype Oracle = Oracle(login: nat -> LoginOutcome, fetch: nat -> FetchOutcome)

  /** One externally visible step of a run, in the order it happened. */
  datatype Call = LoginCall | FetchCall(token: string)

  /** The value `getTemplates` resolves to, the steps it took and the files it left. */
  datatype Run = Run(result: Templates.FetchResult, calls: seq<Call>, files: Files)

  const INITIAL_LOGIN_FAILED := "Initial login failed"
  const NO_TOKEN_AFTER_LOGIN := "Failed to get token after login"
  const RELOGIN_FAILED := "Re-login failed"
  const NO_TOKEN_AFTER_RELOGIN := "Failed to get token after re-login"

  /** The value of the first `token` cookie in the stored state; `None` when the file is missing or unreadable. */
  function GetTokenFromStorage(f: Files): (r: Option<string>)
    ensures f.auth.None? ==> r.None?
    ensures f.auth == Some(MalformedAuth) ==> r.None?
    ensures f.auth.Some? && f.auth.value.StorageState? ==> r == FirstTokenCookie(f.auth.value.cookies)
  {
    match f.auth
    case None => None
    case Some(MalformedAuth) => None
    case Some(StorageState(cookies)) => FirstTokenCookie(cookies)
  }

  /** The outer catch: a returned result passes through, a thrown error becomes `{success: false, error}`. */
  function Settle(outcome: FetchOutcome): (r: Templates.FetchResult)
    ensures outcome.Threw? ==> r == Templates.FetchErr(outcome.message)
    ensures outcome.Returned? ==> r == outcome.result
  {
    match outcome
    case Returned(result) => result
    case Threw(message) => Templates.FetchErr(message)
  }

  function CountLogins(calls: seq<Call>): nat {
    if |calls| == 0 then 0 else (if calls[0].LoginCall? then 1 else 0) + CountLogins(calls[1..])
  }

  function CountFetches(calls: seq<Call>): nat {
    if |calls| == 0 then 0 else (if calls[0].FetchCall? then 1 else 0) + CountFetches(calls[1..])
  }

  /** Applies one login of the script; a successful login rewrites the stored session. */
  function LoginEffect(outcome: LoginOutcome, f: Files, now: int): Files {
    match outcome
    case LoginFailed => f
    case LoginSucceeded(cookies) => StampSession(f, cookies, now)
  }

  /**
   The fetch with a usable token and what follows it. `logins` is how many
   logins already happened in this run, `before` the steps taken so far.
   */
  function FetchWithRetry(o: Oracle, f: Files, now: int, token: string, logins: nat, before: seq<Call>): (r: Run)
    requires token != ""
    ensures |r.calls| > |before| && r.calls[..|before|] == before && r.calls[|before|] == FetchCall(token)
    ensures o.fetch(0).Returned? ==> r == Run(o.fetch(0).result, before + [FetchCall(token)], f)
    ensures o.fetch(0).Threw? && o.fetch(0).message != Templates.AUTH_FAILED ==>
      r == Run(Templates.FetchErr(o.fetch(0).message), before + [FetchCall(token)], f)
    ensures o.fetch(0) == Threw(Templates.AUTH_FAILED) ==>
      |r.calls| >= |before| + 2 && r.calls[|before| + 1] == LoginCall
    ensures CountLogins(r.calls[|before|..]) <= 1 && CountFetches(r.calls[|before|..]) <= 2
    ensures o.fetch(0) == Threw(Templates.AUTH_FAILED) && o.login(logins) == LoginFailed ==>
      r == Run(Templates.FetchErr(RELOGIN_FAILED), before + [FetchCall(token), LoginCall], f)
    ensures (o.fetch(0) == Threw(Templates.AUTH_FAILED) && o.login(logins).LoginSucceeded? &&
             !Truthy(FirstTokenCookie(o.login(logins).cookies))) ==>
      r == Run(Templates.FetchErr(NO_TOKEN_AFTER_RELOGIN), before + [FetchCall(token), LoginCall],
               StampSession(f, o.login(logins).cookies, now))
    ensures (o.fetch(0) == Threw(Templates.AUTH_FAILED) && o.login(logins).LoginSucceeded? &&
             Truthy(FirstTokenCookie(o.login(logins).cookies))) ==>
      r == Run(Settle(o.fetch(1)),
               before + [FetchCall(token), LoginCall, FetchCall(FirstTokenCookie(o.login(logins).cookies).value)],
               StampSession(f, o.login(logins).cookies, now))
  {
    var first := before + [FetchCall(token)];
    match o.fetch(0)
    case Returned(result) =>
      assert first[|before|..] == [FetchCall(token)];
      Run(result, first, f)
    case Threw(message) =>
      if message != Templates.AUTH_FAILED then
        assert first[|before|..] == [FetchCall(token)];
        Run(Templates.FetchErr(message), first, f)
      else
        var relogged := first + [LoginCall];
        assert relogged[|before|..] == [FetchCall(token), LoginCall];
        assert [FetchCall(token), LoginCall][1..] == [LoginCall];
        assert [LoginCall][1..] == [];
        var outcome := o.login(logins);
        var f1 := LoginEffect(outcome, f, now);
        if outcome.LoginFailed? then
          Run(Templates.FetchErr(RELOGIN_FAILED), relogged, f1)
        else
          var newToken := GetTokenFromStorage(f1);
          if !Truthy(newToken) then
            Run(Templates.FetchErr(NO_TOKEN_AFTER_RELOGIN), relogged, f1)
          else
            var retried := relogged + [FetchCall(newToken.value)];
            assert retried[|before|..] == [FetchCall(token), LoginCall, FetchCall(newToken.value)];
            assert [FetchCall(token), LoginCall, FetchCall(newToken.value)][1..] == [LoginCall, FetchCall(newToken.value)];
            assert [LoginCall, FetchCall(newToken.value)][1..] == [FetchCall(newToken.value)];
            assert [FetchCall(newToken.value)][1..] == [];
            assert CountFetches([FetchCall(newToken.value)]) == 1;
            assert CountLogins([FetchCall(newToken.value)]) == 0;
            assert CountLogins([LoginCall, FetchCall(newToken.value)]) == 1;
            assert CountFetches([LoginCall, FetchCall(newToken.value)]) == 1;
            Run(Settle(o.fetch(1)), retried, f1)
  }

  /**
   One `getTemplates` call. Every path resolves to a result (it never
   throws); a login always precedes the first fetch when no token is stored;
   there are at most two logins and at most two fetches.
   */
  function GetTemplates(o: Oracle, f: Files, now: int): (r: Run)
    ensures CountLogins(r.calls) <= 2 && CountFetches(r.calls) <= 2
    ensures |r.calls| > 0
    ensures !Truthy(GetTokenFromStorage(f)) ==> r.calls[0] == LoginCall
    ensures Truthy(GetTokenFromStorage(f)) ==> r.calls[0] == FetchCall(GetTokenFromStorage(f).value)
    ensures forall i :: 0 <= i < |r.calls| && r.calls[i].FetchCall? ==> r.calls[i].token != ""
  {
    var stored := GetTokenFromStorage(f);
    if Truthy(stored) then
      var r := FetchWithRetry(o, f, now, stored.value, 0, []);
      assert r.calls[0..] == r.calls;
      r
    else
      var outcome := o.login(0);
      var f1 := LoginEffect(outcome, f, now);
      if outcome.LoginFailed? then
        Run(Templates.FetchErr(INITIAL_LOGIN_FAILED), [LoginCall], f1)
      else
        var token := GetTokenFromStorage(f1);
        if !Truthy(token) then
          Run(Templates.FetchErr(NO_TOKEN_AFTER_LOGIN), [LoginCall], f1)
        else
          var r := FetchWithRetry(o, f1, now, token.value, 1, [LoginCall]);
          CountSplit(r.calls, 1);
          assert r.calls[..1] == [LoginCall];
          r
  }

  /** Counting a trace in two parts. */
  lemma {:induction false} CountSplit(calls: seq<Call>, k: nat)
    requires k <= |calls|
    ensures CountLogins(calls) == CountLogins(calls[..k]) + CountLogins(calls[k..])
    ensures CountFetches(calls) == CountFetches(calls[..k]) + CountFetches(calls[k..])
  {
    if k > 0 {
      CountSplit(calls[1..], k - 1);
      assert calls[1..][..k - 1] == calls[..k][1..];
      assert calls[1..][k - 1..] == calls[k..];
    }
  }

  // ---------------------------------------------------------------------------
  // Properties
  // ---------------------------------------------------------------------------

  /** A failed first login ends the run with `Initial login failed` before any fetch. */
  lemma InitialLoginFailure(o: Oracle, f: Files, now: int)
    requires !Truthy(GetTokenFromStorage(f))
    requires o.login(0) == LoginFailed
    ensures GetTemplates(o, f, now) == Run(Templates.FetchErr(INITIAL_LOGIN_FAILED), [LoginCall], f)
  {
  }

  /** A login that succeeds but stores no usable token ends the run before any fetch. */
  lemma NoTokenAfterInitialLogin(o: Oracle, f: Files, now: int, cookies: seq<Cookie>)
    requires !Truthy(GetTokenFromStorage(f))
    requires o.login(0) == LoginSucceeded(cookies) && !Truthy(FirstTokenCookie(cookies))
    ensures GetTemplates(o, f, now).result == Templates.FetchErr(NO_TOKEN_AFTER_LOGIN)
    ensures GetTemplates(o, f, now).calls == [LoginCall]
  {
  }

  /**
   When the first fetch returns instead of throwing, its result is the run's
   result, there is exactly one fetch and at most the one initial login.
   */
  lemma ReturningFetchNeverRelogs(o: Oracle, f: Files, now: int)
    requires o.fetch(0).Returned?
    ensures var r := GetTemplates(o, f, now);
      && CountFetches(r.calls) <= 1
      && CountLogins(r.calls) <= 1
      && (CountFetches(r.calls) == 1 ==> r.result == o.fetch(0).result)
    ensures Truthy(GetTokenFromStorage(f)) ==>
      GetTemplates(o, f, now).calls == [FetchCall(GetTokenFromStorage(f).value)]
    ensures !Truthy(GetTokenFromStorage(f)) && o.login(0).LoginSucceeded? && Truthy(FirstTokenCookie(o.login(0).cookies)) ==>
      GetTemplates(o, f, now) ==
        Run(o.fetch(0).result, [LoginCall, FetchCall(FirstTokenCookie(o.login(0).cookies).value)],
            StampSession(f, o.login(0).cookies, now))
  {
    var r := GetTemplates(o, f, now);
    var stored := GetTokenFromStorage(f);
    if Truthy(stored) {
      assert r.calls == [FetchCall(stored.value)];
      assert [FetchCall(stored.value)][1..] == [];
    } else if o.login(0).LoginSucceeded? && Truthy(FirstTokenCookie(o.login(0).cookies)) {
      var t := FirstTokenCookie(o.login(0).cookies).value;
      assert r.calls == [LoginCall] + [FetchCall(t)];
      assert [LoginCall, FetchCall(t)][1..] == [FetchCall(t)];
      assert [FetchCall(t)][1..] == [];
      assert CountFetches([FetchCall(t)]) == 1 && CountLogins([FetchCall(t)]) == 0;
    }
  }

  /**
   The fetch the poller actually calls: it resolves every API outcome to a
   result and never throws, so a rejected token arrives as the returned
   error `AUTH_FAILED`, and the call succeeds exactly when it got a reply.
   */
  function RealFetch(api: nat -> Templates.ApiOutcome, parse: string -> Option<int>, format: string -> string, now: int)
    : (fetch: nat -> FetchOutcome)
    ensures forall k: nat :: fetch(k).Returned?
    ensures forall k: nat :: fetch(k).result.FetchOk? <==> api(k).ApiOk?
    ensures forall k: nat :: fetch(k).result == Templates.FetchErr(Templates.AUTH_FAILED) <==>
      api(k).ApiRejected? && api(k).status == Http.UNAUTHORIZED
  {
    (k: nat) => Returned(Templates.FetchMissingTemplates(api(k), parse, format, now))
  }

  /**
   With the real fetch the retry branch is dead: a rejected token comes back
   as a `FetchErr(AUTH_FAILED)` result rather than a throw, so no re-login
   and no second fetch ever happens.
   */
  lemma RealFetchNeverRetries(
    login: nat -> LoginOutcome, api: nat -> Templates.ApiOutcome,
    parse: string -> Option<int>, format: string -> string, f: Files, now: int)
    ensures var r := GetTemplates(Oracle(login, RealFetch(api, parse, format, now)), f, now);
      CountFetches(r.calls) <= 1 && CountLogins(r.calls) <= 1
    ensures var r := GetTemplates(Oracle(login, RealFetch(api, parse, format, now)), f, now);
      Truthy(GetTokenFromStorage(f)) && api(0).ApiRejected? && api(0).status == Http.UNAUTHORIZED ==>
        r.result == Templates.FetchErr(Templates.AUTH_FAILED)
  {
    var fetch := RealFetch(api, parse, format, now);
    Templates.AuthFailedOnlyFrom401(api(0), parse, format, now);
    ReturningFetchNeverRelogs(Oracle(login, fetch), f, now);
  }

  /**
   A first fetch that throws `AUTH_FAILED` is followed by exactly one
   re-login and, when that yields a token, exactly one retried fetch whose
   outcome is final, even when it throws `AUTH_FAILED` again.
   */
  lemma AuthFailedRetriesOnce(o: Oracle, f: Files, now: int)
    requires Truthy(GetTokenFromStorage(f))
    requires o.fetch(0) == Threw(Templates.AUTH_FAILED)
    ensures var token := GetTokenFromStorage(f).value; var r := GetTemplates(o, f, now);
      o.login(0) == LoginFailed ==>
        r == Run(Templates.FetchErr(RELOGIN_FAILED), [FetchCall(token), LoginCall], f)
    ensures var token := GetTokenFromStorage(f).value; var r := GetTemplates(o, f, now);
      o.login(0).LoginSucceeded? && !Truthy(FirstTokenCookie(o.login(0).cookies)) ==>
        r.result == Templates.FetchErr(NO_TOKEN_AFTER_RELOGIN) && r.calls == [FetchCall(token), LoginCall]
    ensures var token := GetTokenFromStorage(f).value; var r := GetTemplates(o, f, now);
      o.login(0).LoginSucceeded? && Truthy(FirstTokenCookie(o.login(0).cookies)) ==>
        && r.result == Settle(o.fetch(1))
        && r.calls == [FetchCall(token), LoginCall, FetchCall(FirstTokenCookie(o.login(0).cookies).value)]
  {
  }

  /**
   The same recovery when the run logged in first: the re-login is the
   run's second login, and the retried fetch is its second fetch.
   */
  lemma AuthFailedAfterInitialLogin(o: Oracle, f: Files, now: int, cookies: seq<Cookie>)
    requires !Truthy(GetTokenFromStorage(f))
    requires o.login(0) == LoginSucceeded(cookies) && Truthy(FirstTokenCookie(cookies))
    requires o.fetch(0) == Threw(Templates.AUTH_FAILED)
    ensures var token := FirstTokenCookie(cookies).value; var r := GetTemplates(o, f, now);
      o.login(1) == LoginFailed ==>
        r == Run(Templates.FetchErr(RELOGIN_FAILED), [LoginCall, FetchCall(token), LoginCall], StampSession(f, cookies, now))
    ensures var token := FirstTokenCookie(cookies).value; var r := GetTemplates(o, f, now);
      o.login(1).LoginSucceeded? && !Truthy(FirstTokenCookie(o.login(1).cookies)) ==>
        r.result == Templates.FetchErr(NO_TOKEN_AFTER_RELOGIN) && r.calls == [LoginCall, FetchCall(token), LoginCall]
    ensures var token := FirstTokenCookie(cookies).value; var r := GetTemplates(o, f, now);
      o.login(1).LoginSucceeded? && Truthy(FirstTokenCookie(o.login(1).cookies)) ==>
        && r.result == Settle(o.fetch(1))
        && r.calls == [LoginCall, FetchCall(token), LoginCall, FetchCall(FirstTokenCookie(o.login(1).cookies).value)]
  {
  }
}

=== FILE: templates.dfy ===
/**
 The template pipeline: one call to the template-status endpoint, then
 normalisation, the "disabled in the last four hours" filter, date
 reformatting and the `{success, templates, totalCount}` result shape.

 Dates are strings as the endpoint sends them. Parsing one (`new Date(s).getTime()`)
 is the parameter `parse`, yielding epoch milliseconds or `None` for NaN;
 rendering one for display is the parameter `format`.
 */
module Templates {
  import opened Wrappers
  import Http

  /** The only status the filter keeps, compared case-sensitively. */
  const DISABLED := "DISABLED"

  /** Width of the trailing window, in milliseconds. */
  const WINDOW_MS := 4 * 60 * 60 * 1000

  /** Message of the error raised for a rejected token. */
  const AUTH_FAILED := "AUTH_FAILED"

  /** Prefix of the message raised for every other failed call. */
  const API_FAILED_PREFIX := "API call failed: "

  datatype StatusChange = StatusChange(timestamp: string)

  /** A template as the endpoint returns it; a missing `statusJourney` reads as empty. */
  datatype RawTemplate = RawTemplate(
    name: string,
    rejectedReason: string,
    status: string,
    statusJourney: seq<StatusChange>,
    updatedAt: string)

  /** A normalised template. */
  datatype Template = Template(name: string, rejectedReason: string, disabledTime: string, status: string)

  /** The shape `fetchMissingTemplates` resolves to: it never throws. */
  datatype FetchResult = FetchOk(templates: seq<Template>, totalCount: nat) | FetchErr(error: string)

  /**
   How the HTTP call ended: a body with its template list, an HTTP error
   response with a status, or no response at all (network failure, or any
   other error raised while handling the reply), each with its message.
   */
  datatype ApiOutcome =
    | ApiOk(templates: seq<RawTemplate>)
    | ApiRejected(status: int, message: string)
    | ApiUnreachable(message: string)

  /** The error mapping of the API call: 401 becomes `AUTH_FAILED`, anything else is prefixed. */
  function MakeApiCall(outcome: ApiOutcome): (r: Result<seq<RawTemplate>, string>)
    ensures r.Success? <==> outcome.ApiOk?
    ensures r.Success? ==> r.value == outcome.templates
    ensures outcome.ApiRejected? && outcome.status == Http.UNAUTHORIZED ==> r == Failure(AUTH_FAILED)
    ensures outcome.ApiRejected? && outcome.status != Http.UNAUTHORIZED ==> r == Failure(API_FAILED_PREFIX + outcome.message)
    ensures outcome.ApiUnreachable? ==> r == Failure(API_FAILED_PREFIX + outcome.message)
  {
    match outcome
    case ApiOk(templates) => Success(templates)
    case ApiRejected(status, message) =>
      if status == Http.UNAUTHORIZED then Failure(AUTH_FAILED) else Failure(API_FAILED_PREFIX + message)
    case ApiUnreachable(message) => Failure(API_FAILED_PREFIX + message)
  }

  /** The time of the most recent status change: the last journey entry, else `updatedAt`. */
  function LastStatusChange(t: RawTemplate): string {
    if |t.statusJourney| > 0 then t.statusJourney[|t.statusJourney| - 1].timestamp else t.updatedAt
  }

  /** Normalises every raw template, one record per input in the same order. */
  function ProcessTemplates(raws: seq<RawTemplate>): (r: seq<Template>)
    ensures |r| == |raws|
    ensures forall i :: 0 <= i < |raws| ==>
      && r[i].name == raws[i].name
      && r[i].rejectedReason == raws[i].rejectedReason
      && r[i].status == raws[i].status
      && r[i].disabledTime == LastStatusChange(raws[i])
  {
    seq(|raws|, i requires 0 <= i < |raws| =>
      Template(raws[i].name, raws[i].rejectedReason, LastStatusChange(raws[i]), raws[i].status))
  }

  /** The start of the trailing window: four hours before `now`. */
  function Cutoff(now: int): int {
    now - WINDOW_MS
  }

  /** The filter's test: status exactly `DISABLED` and a parseable time no earlier than the cutoff. */
  predicate IsRecent(t: Template, parse: string -> Option<int>, cutoff: int) {
    && t.status == DISABLED
    && match parse(t.disabledTime)
       case Some(ms) => ms >= cutoff
       case None => false
  }

  /** `a` is `b` with some elements left out and the rest in their original order. */
  predicate IsSubsequence<T(==)>(a: seq<T>, b: seq<T>)
    decreases |b|
  {
    if |a| == 0 then true
    else if |b| == 0 then false
    else (a[0] == b[0] && IsSubsequence(a[1..], b[1..])) || IsSubsequence(a, b[1..])
  }

  /** The templates of `ts` that pass the filter, as an order-preserving subsequence. */
  function KeepRecent(ts: seq<Template>, parse: string -> Option<int>, cutoff: int): (r: seq<Template>)
    ensures IsSubsequence(r, ts)
    ensures forall t :: t in r ==> IsRecent(t, parse, cutoff)
    ensures forall t :: t in ts && IsRecent(t, parse, cutoff) ==> t in r
    ensures forall t :: multiset(r)[t] == if IsRecent(t, parse, cutoff) then multiset(ts)[t] else 0
  {
    if |ts| == 0 then []
    else
      var rest := KeepRecent(ts[1..], parse, cutoff);
      assert ts == [ts[0]] + ts[1..];
      if IsRecent(ts[0], parse, cutoff) then [ts[0]] + rest
      else rest
  }

  /** The filter as run at time `now`, with its cutoff four hours earlier. */
  function FilterRecentTemplates(ts: seq<Template>, parse: string -> Option<int>, now: int): seq<Template> {
    KeepRecent(ts, parse, Cutoff(now))
  }

  /** Reformats `disabledTime` for display and leaves every other field and the order alone. */
  function FormatTemplateDates(ts: seq<Template>, format: string -> string): (r: seq<Template>)
    ensures |r| == |ts|
    ensures forall i :: 0 <= i < |ts| ==>
      && r[i].name == ts[i].name
      && r[i].rejectedReason == ts[i].rejectedReason
      && r[i].status == ts[i].status
      && r[i].disabledTime == format(ts[i].disabledTime)
  {
    seq(|ts|, i requires 0 <= i < |ts| => ts[i].(disabledTime := format(ts[i].disabledTime)))
  }

  /**
   The whole pipeline. Any failure of the call is caught and returned as
   `FetchErr` with the thrown message; on success the count is the number
   of templates returned, all of them disabled.
   */
  function FetchMissingTemplates(
    outcome: ApiOutcome, parse: string -> Option<int>, format: string -> string, now: int): (r: FetchResult)
    ensures r.FetchOk? <==> outcome.ApiOk?
    ensures r.FetchOk? ==> r.totalCount == |r.templates| <= |outcome.templates|
    ensures r.FetchOk? ==> forall i :: 0 <= i < |r.templates| ==> r.templates[i].status == DISABLED
    ensures r.FetchErr? ==> MakeApiCall(outcome) == Failure(r.error)
    ensures outcome.ApiOk? ==>
      var kept := KeepRecent(ProcessTemplates(outcome.templates), parse, Cutoff(now));
      && |r.templates| == |kept|
      && forall i :: 0 <= i < |kept| ==> r.templates[i] == kept[i].(disabledTime := format(kept[i].disabledTime))
  {
    match MakeApiCall(outcome)
    case Failure(message) => FetchErr(message)
    case Success(raws) =>
      var recent := FilterRecentTemplates(ProcessTemplates(raws), parse, now);
      SubsequenceNoLonger(recent, ProcessTemplates(raws));
      assert forall i :: 0 <= i < |recent| ==> recent[i] in recent;
      FetchOk(FormatTemplateDates(recent, format), |recent|)
  }

  // ---------------------------------------------------------------------------
  // Properties
  // ---------------------------------------------------------------------------

  /** A subsequence is never longer than the sequence it is taken from. */
  lemma {:induction false} SubsequenceNoLonger<T>(a: seq<T>, b: seq<T>)
    requires IsSubsequence(a, b)
    ensures |a| <= |b|
    decreases |b|
  {
    if |a| == 0 {
    } else if a[0] == b[0] && IsSubsequence(a[1..], b[1..]) {
      SubsequenceNoLonger(a[1..], b[1..]);
    } else {
      SubsequenceNoLonger(a, b[1..]);
    }
  }

  /** Appending a status change makes its timestamp the template's disabled time. */
  lemma LatestJourneyEntryWins(t: RawTemplate, change: StatusChange)
    ensures LastStatusChange(t.(statusJourney := t.statusJourney + [change])) == change.timestamp
  {
  }

  /** Without a status journey the disabled time falls back to `updatedAt`. */
  lemma EmptyJourneyUsesUpdatedAt(t: RawTemplate)
    requires t.statusJourney == []
    ensures ProcessTemplates([t]) == [Template(t.name, t.rejectedReason, t.updatedAt, t.status)]
  {
  }

  /** Formatting with the identity leaves the list exactly as it was: no other field is touched. */
  lemma FormatWithIdentity(ts: seq<Template>)
    ensures FormatTemplateDates(ts, s => s) == ts
  {
  }

  /** Filtering an already filtered list keeps all of it: for a fixed cutoff the filter is idempotent. */
  lemma {:induction false} KeepRecentIdempotent(ts: seq<Template>, parse: string -> Option<int>, cutoff: int)
    ensures KeepRecent(KeepRecent(ts, parse, cutoff), parse, cutoff) == KeepRecent(ts, parse, cutoff)
  {
    if |ts| > 0 {
      KeepRecentIdempotent(ts[1..], parse, cutoff);
      if IsRecent(ts[0], parse, cutoff) {
        var rest := KeepRecent(ts[1..], parse, cutoff);
        assert ([ts[0]] + rest)[1..] == rest;
      }
    }
  }

  /**
   The window boundary: a disabled template is kept exactly when its time
   parses and is at or after `now` minus four hours. Exactly four hours ago
   is kept, one millisecond earlier is not, and an unparseable time never is.
   */
  lemma WindowBoundary(t: Template, parse: string -> Option<int>, now: int)
    requires t.status == DISABLED
    ensures FilterRecentTemplates([t], parse, now) == [t] <==>
      parse(t.disabledTime).Some? && parse(t.disabledTime).value >= now - WINDOW_MS
    ensures parse(t.disabledTime) == Some(now - WINDOW_MS) ==> FilterRecentTemplates([t], parse, now) == [t]
    ensures parse(t.disabledTime) == Some(now - WINDOW_MS - 1) ==> FilterRecentTemplates([t], parse, now) == []
    ensures parse(t.disabledTime).None? ==> FilterRecentTemplates([t], parse, now) == []
  {
  }

  /** Any status other than the exact string `DISABLED` (lower case included) is dropped. */
  lemma OnlyDisabledSurvives(t: Template, parse: string -> Option<int>, now: int)
    requires t.status != DISABLED
    ensures FilterRecentTemplates([t], parse, now) == []
  {
  }

  /**
   A worked window: disabled templates changed 3 and 1 hours ago survive,
   one changed 5 hours ago and an enabled one changed 1 hour ago do not.
   */
  lemma ThreeHourAndOneHourSurvive(a: Template, b: Template, c: Template, d: Template, parse: string -> Option<int>, now: int)
    requires a.status == DISABLED && parse(a.disabledTime) == Some(now - 3 * 60 * 60 * 1000)
    requires b.status == DISABLED && parse(b.disabledTime) == Some(now - 5 * 60 * 60 * 1000)
    requires c.status == DISABLED && parse(c.disabledTime) == Some(now - 1 * 60 * 60 * 1000)
    requires d.status == "ENABLED" && parse(d.disabledTime) == Some(now - 1 * 60 * 60 * 1000)
    ensures FilterRecentTemplates([a, b, c, d], parse, now) == [a, c]
  {
    var cutoff := Cutoff(now);
    assert [a, b, c, d][1..] == [b, c, d];
    assert [b, c, d][1..] == [c, d];
    assert [c, d][1..] == [d];
    assert [d][1..] == [];
    assert KeepRecent([d], parse, cutoff) == [];
    assert KeepRecent([c, d], parse, cutoff) == [c];
    assert KeepRecent([b, c, d], parse, cutoff) == [c];
  }

  /** The two failure kinds stay apart: only a 401 produces the `AUTH_FAILED` message. */
  lemma AuthFailedOnlyFrom401(outcome: ApiOutcome, parse: string -> Option<int>, format: string -> string, now: int)
    ensures FetchMissingTemplates(outcome, parse, format, now) == FetchErr(AUTH_FAILED) <==>
      outcome.ApiRejected? && outcome.status == Http.UNAUTHORIZED
  {
  }
}

=== FILE: wrappers.dfy ===
/** Option and Result, used throughout the model. */
module Wrappers {

  /** A value that may be missing: a JavaScript `null` return, or a date that parses to NaN. */
  datatype Option<+T> = None | Some(value: T)

  /** The outcome of an operation that may throw: a value, or the thrown error's message. */
  datatype Result<+R, +E> = Success(value: R) | Failure(error: E)
}
